=== FILE: README.md ===
# Online SGD in Go, modelled in Dafny

The Go repository holds several overlapping copies of one small piece of
logic: an online stochastic-gradient-descent update of a parameter vector
theta from observations (x, y). This project models all of those copies.

- **The SGD kernel.** `SgdKernel` in `sgd.go`, `sgdKernel/sgd.go` and
  `sgdKernel/sgdKernel.go` owns (theta, n, tau, kappa) and serves four
  channels:
  - data: take a gradient, count the observation, ask the step function for eta, step theta;
  - params: replace tau and kappa;
  - state query: reply with theta;
  - quit: stop.

  It is modelled as a pure transition `Kernel.Step` over a message
  datatype, with `Kernel.Run` over a message sequence. The loss gradient
  and the step-size function are function parameters. A Go panic inside
  the goroutine becomes the absorbing state `Crashed`, as `Terminated` is
  after quit.
- **The gradients.** There are two variants:
  - full dot product first, then one shared residual times x (`sgd.go`,
    `sgdKernel/sgd.go`, `sgdLib.go`, `sgdlib/sgdlib.go`; module
    `Gradients`, and `SgdLib` for the copy whose loops are both bounded by
    len(theta));
  - a running prefix sum fused into the fill loop (`sgdlib/stats.go`;
    module `Stats`).
- **The step-size rules** `EtaInverse` (1/K), `EtaBottou` (Pow(tau+K, kappa))
  and the inline one-shot rule 1/(n+1) (module `StepSizes`).
- **The one-shot updates:**
  - `Sgd` of `sgdlib/sgdlib.go` returns a fresh vector (module `SgdLib`);
  - the scalar coordinate-wise `sgd1`, `sgd2` and the in-place `sgd3` of
    `src/sgd.go` and `sgdlib.go` (module `ScalarSgd`). `sgd3` is a method
    on an `array<real>`, because it mutates its input through an alias.

Modelling conventions:
- Vectors are `seq<real>`.
- A Go panic is `Outcomes.Result.Panicked(cause)`. The cause is either an
  index out of range, or a call of the nil function that a `loss_map`
  lookup with a missing key yields. Contracts therefore say exactly when
  each operation panics, instead of excluding those inputs.
- `math.Exp` and `math.Pow` are parameters:
  - `Exp` is any function with positive values;
  - `Pow` is any function of two reals.

Where the code departs from what its names suggest, the model follows the
code:
- `EtaBottou` is Pow(tau + K, kappa) with the exponent not negated, so it
  decays only for a negative kappa (`StepSizes.BottouGrowsWithPositiveKappa`).
- Nothing rejects an observation of the wrong dimension. An x of the wrong
  length makes the full-dot gradients index out of range, and the kernel
  crashes (`Kernel.LinearKernelObservation`).
- The kernel's update has no adaptive step scale, no divergence flag and
  applies no regulariser: theta moves by eta * grad and nothing else.
- Every vector `grad_logistic_loss` carries the comment
  `grad = ( y - 1 / math.Exp(-(x * theta)) ) * x`. That formula is what the
  scalar `grad_logistic_loss` computes as code (src/sgd.go:48,
  sgdlib.go:52), and it is y - exp(x theta) for a true exponential
  (`ScalarSgd.ScalarLogisticIsExponential`). The vector versions, except
  the sgdlib/sgdlib.go placeholder (which computes no estimate and returns
  [0]), pass the estimate through `logit` instead, the sigmoid
  1 / (1 + e^-z). So the scalar and vector "logistic" gradients differ
  even in one dimension (`ScalarSgd.ScalarLogisticIsNotSigmoid`).
- `sgdlib/sgdlib.go` and `sgdlib/stats.go` both declare `loss_map`,
  `grad_linear_loss` and `grad_logistic_loss` in package `sgdlib`, so the
  package does not build as shown. Each file is modelled on its own, as
  modules `SgdLib` and `Stats`.

## Model

| member | source | states |
|---|---|---|
| RealMath.Logit | sgd.go:69-71 | logit maps every real strictly into (0, 1), and gives one half where exp(-z) is 1 |
| RealMath.Identity | sgd.go:65-67 | the identity link passes the estimate on unchanged, so the identity-linked gradient is the linear one |
| RealMath.DotOrderIrrelevant | sgd.go:76-79 | the estimate the Go loop accumulates left to right equals theta . x summed from the front, so the loop computes the dot product |
| RealMath.ResidualGradientCollinear | sgdLib.go:26-34 | every coordinate of the full-dot gradient is the same residual times x[i], so any two coordinates are in the ratio of the matching x coordinates |
| Gradients.AccumulateEstimate | sgd.go:76-79 | the first loop panics exactly when x is shorter than theta, and otherwise yields theta . x |
| Gradients.FillAlongX | sgd.go:80-83 | the second loop panics exactly when x is longer than the gradient slice; otherwise it writes err * x[i] where x reaches and leaves zeros beyond |
| Gradients.GradFullDot | sgd.go:74-101 | the two loops together panic exactly when len(x) != len(theta), and otherwise give a len(theta) vector with grad[i] = (y - link(theta . x)) * x[i] |
| Gradients.GradLinearLoss | sgd.go:74-86 | GradLinearLoss (also sgdKernel/sgd.go and sgdLib.go) panics unless len(x) == len(theta), and otherwise gives grad[i] = (y - theta . x) * x[i] of length len(theta) |
| Gradients.GradLogisticLoss | sgd.go:88-101 | GradLogisticLoss panics unless len(x) == len(theta), and otherwise gives grad[i] = (y - logit(theta . x)) * x[i] |
| Gradients.LinearGradientIsMultipleOfX | sgdLib.go:25-35 | grad_linear_loss succeeds on equal lengths, and its result is a scalar multiple of x |
| Gradients.LogisticIsLinkedLinear | sgdLib.go:37-49 | the logistic gradient is the linear gradient with y replaced by y - logit(e) + e, where e = theta . x: the two differ only in the link |
| StepSizes.EtaInverse | sgd.go:57-59 | EtaInverse is the positive reciprocal of K, and at most 1 for every count the kernel passes |
| StepSizes.EtaInverseIgnoresSchedule | sgdLib.go:8-10 | eta_inverse gives the same value whatever tau and kappa are |
| StepSizes.EtaInverseDecreasing | sgdKernel/sgd.go:56-58 | the inverse step never grows as the count grows |
| StepSizes.BottouReadsShiftedCount | sgd.go:60-62 | EtaBottou = Pow(tau + K, kappa) reads K and tau only through their sum: tau shifts the observation count |
| StepSizes.BottouAtMinusOneIsInverse | sgd.go:60-62 | with the exponent not negated, EtaBottou at tau = 0 coincides with EtaInverse when kappa = -1 |
| StepSizes.BottouGrowsWithPositiveKappa | sgdLib.go:11-13 | eta_bottou with kappa = 1 strictly grows with K whenever Pow is the identity at exponent 1 |
| StepSizes.OneShotStepSize | sgdlib/sgdlib.go:85 | step_size times (eta + 1) is 1, and for eta >= 0 it lies in (0, 1] |
| StepSizes.OneShotIsInverseOfSuccessor | src/sgd.go:81 | the one-shot rule at n equals the kernel's inverse rule at K = n + 1 |
| Kernel.Start | sgd.go:23-28 | the kernel starts running with theta = theta_0, n = 0 and tau = kappa = 0 |
| Kernel.Step | sgd.go:29-53 | stopped kernels are inert; only a state query replies, with theta, and changes nothing; params replace only tau and kappa; quit terminates; only data can crash the kernel, exactly when the loss panics (the crash carries the loss's panic) or returns a gradient shorter than theta (an index out of range); data gives n + 1 with the schedule and dimension unchanged and theta[i] + eta * grad[i], with eta = getStepSize(n + 1, tau, kappa) and grad taken at the old theta |
| Kernel.Run | sgd.go:29-53 | over any sequence of messages, a stopped kernel never runs again, a crash needs an observation, and only state queries are answered, each at most once |
| Kernel.RunAppend | sgd.go:29-53 | a run of a + b is the run of a followed by the run of b from where a left the kernel: a's replies are kept, in order and ahead of b's, even when the kernel stops later |
| Kernel.QueryAnswersReachedState | sgd.go:48-49 | a state query after any run is answered with the theta of the state that run reached, with every earlier observation applied, and only while the kernel runs |
| Kernel.StoppedKernelIgnoresMessages | sgd.go:50-51 | after quit (or a crash) no message of any run is processed or answered |
| Kernel.QuitIsFinal | sgdKernel/sgdKernel.go:44-45 | a quit message ends the kernel whatever messages follow it |
| Kernel.RunKeepsCountAndDimension | sgd.go:36-44 | over any run the kernel survives, n grows by exactly the number of observations, theta keeps its length, every state query is answered, and every answer has theta's length |
| Kernel.ConfigurationKeepsEstimate | sgd.go:45-49 | any run of params and state queries leaves theta and n unchanged, and every answer is that theta |
| Kernel.SnapshotIdempotent | sgdKernel/sgdKernel.go:42-43 | two state queries with nothing in between return equal vectors and change nothing |
| Kernel.StartAnswersInitialTheta | sgdKernel/sgdKernel.go:19-23 | the initial state answers theta_0 to a state query |
| Kernel.FirstObservationUsesInitialSchedule | sgdKernel/sgd.go:24-43 | the first observation calls the step function with K = 1, tau = kappa = 0, and takes the gradient at theta_0 |
| Kernel.ParamsTakeEffectOnNextObservation | sgdKernel/sgd.go:31-46 | after a params message the next observation's step size uses the new tau and kappa |
| Kernel.LinearKernelObservation | sgdKernel/sgd.go:73-83 | with the linear gradient, an observation whose x length differs from theta's crashes the kernel; otherwise theta[i] moves by eta * (y - theta . x) * x[i] |
| Kernel.LogisticKernelObservation | sgdKernel/sgd.go:85-98 | with the logistic gradient, as for the linear one, with the estimate passed through logit |
| Kernel.BottouWithoutParamsStepsByPowZero | sgd.go:26-39 | driven by EtaBottou with no params message, tau and kappa stay 0 and every observation steps theta[i] by Pow(K, 0) * grad[i] with K = n + 1 |
| Kernel.InverseScheduleDividesByCount | sgdKernel/sgdKernel.go:32-38 | with EtaInverse, the n-th observation moves theta[i] by grad[i] / n |
| Kernel.InverseScheduleIgnoresConfiguration | sgd.go:36-47 | with EtaInverse as the step function, the params and state-query messages of any run never change the final estimate, count or status, from any two states that differ only in tau and kappa |
| Registry.LossMap | sgdlib/sgdlib.go:43-46 | loss_map has exactly the keys "linear" and "logistic"; every other name yields the nil function |
| SgdLib.GradLinearLoss | sgdlib/sgdlib.go:48-64 | the whole estimate is accumulated before any entry is written; panics exactly when x is shorter than theta; otherwise length len(theta) with grad[i] = (y - theta . x) * x[i] |
| SgdLib.GradLogisticLoss | sgdlib/sgdlib.go:66-70 | the placeholder grad_logistic_loss returns a vector of length one whose entry is zero |
| SgdLib.LookupLoss | sgdlib/sgdlib.go:87 | loss_map[loss_func] panics on the nil function exactly for an unknown name; "linear" gives the full-dot gradient and "logistic" the placeholder [0] |
| SgdLib.LogisticPlaceholderIgnoresInputs | sgdlib/sgdlib.go:66-70 | grad_logistic_loss returns the same one-element zero vector for every input |
| SgdLib.Sgd | sgdlib/sgdlib.go:83-95 | Sgd succeeds exactly for "linear" with len(x) >= len(theta0), or for "logistic" with len(theta0) <= 1; an unknown name panics on the nil function; otherwise it returns a fresh vector of length len(theta0) with theta0[i] + step_size * grad[i]; a logistic step returns theta0 unchanged |
| SgdLib.SgdIsOneKernelStep | sgdlib/sgdlib.go:85-90 | a linear Sgd call with eta = n gives exactly the kernel's update for its (n + 1)-th observation under EtaInverse |
| Stats.LinkMap | sgdlib/stats.go:28-31 | link_map has exactly the keys "identity" and "logit", mapped to those links |
| Stats.IdentityLinkByName | sgdlib/stats.go:33-36 | the identity link found by name returns its argument, 2 for 2 as the link test expects |
| Stats.LogitLinkByName | sgdlib/stats.go:38-41 | the logit link found by name is a probability, one half at 0, and 1 / (1 + exp(-2)) at 2 as the link test expects |
| Stats.PrefixGradientAt | sgdlib/stats.go:58-61 | coordinate i of the fused loop uses the running estimate before term i, plus x[i] theta[i] |
| Stats.GradPrefix | sgdlib/stats.go:53-77 | the fused loop panics exactly when x is shorter than theta, and otherwise returns the length-len(theta) prefix gradient |
| Stats.GradLinearLoss | sgdlib/stats.go:53-64 | grad[i] = (y - sum over j <= i of x[j] theta[j]) * x[i], with length len(theta) |
| Stats.GradLogisticLoss | sgdlib/stats.go:66-77 | grad[i] = (y - logit(sum over j <= i of x[j] theta[j])) * x[i], with length len(theta) |
| Stats.LookupLoss | sgdlib/stats.go:48-51 | loss_map gives the prefix linear and logistic gradients by name, and the nil function otherwise |
| Stats.PrefixFirstCoordinate | sgdlib/stats.go:58-61 | grad[0] = (y - link(x[0] theta[0])) * x[0] |
| Stats.PrefixLastCoordinateAgrees | sgdlib/stats.go:58-61 | the last coordinate of the fused loop equals that of the full-dot gradient |
| Stats.PrefixAgreesInOneDimension | sgdlib/stats.go:58-61 | in one dimension the fused loop and the full dot product compute the same gradient |
| Stats.LinearPrefixAgreesIff | sgdlib/stats.go:58-61 | coordinate i of the linear prefix gradient equals the full-dot one if and only if x[i] is 0 or the prefix sum through i equals theta . x |
| Stats.PrefixLinearLossDiffers | sgdlib/stats.go:58-61 | at x = theta = [1, 1], y = 0 the fused loop returns [-1, -2], while the full-dot gradient of the same package returns [-2, -2] |
| Stats.PrefixLogisticLossDiffers | sgdlib/stats.go:71-74 | at x = theta = [1, 1], y = 0 the fused logistic loop returns [-logit(1), -logit(2)], while the full-dot logistic gradient returns [-logit(2), -logit(2)]; the two differ whenever exp(-1) != exp(-2) |
| ScalarSgd.GradLinearLoss | src/sgd.go:42-45 | the scalar linear gradient (y - x theta) x is zero exactly when x is zero or x theta fits y |
| ScalarSgd.GradLogisticLoss | src/sgd.go:47-50 | the scalar logistic gradient (y - 1/exp(-x theta)) x is zero exactly when x is zero or y equals the estimate 1/exp(-x theta) |
| ScalarSgd.ScalarLinearIsOneDimensional | src/sgd.go:42-45 | the scalar grad_linear_loss (also sgdlib.go:46-49) is the full-dot linear gradient in one dimension |
| ScalarSgd.ScalarLogisticIsExponential | src/sgd.go:47-50 | for a true exponential the scalar logistic gradient is (y - exp(x theta)) * x |
| ScalarSgd.ScalarLogisticIsNotSigmoid | sgdlib.go:51-54 | at x = 1, theta = 0 the scalar logistic estimate is 1 while the vector logistic gradient's is 1/2 |
| ScalarSgd.Sgd1 | src/sgd.go:53-61 | sgd1 panics exactly when y or x is shorter than theta0; otherwise theta1[i] = grad_linear_loss(y[i], x[i], theta0[i]), the linear gradient of the one-dimensional problem at i |
| ScalarSgd.Sgd2 | src/sgd.go:65-73 | sgd2 succeeds exactly when theta0 is empty or the name is known and x is long enough; it panics on the nil function only when x is non-empty; otherwise theta1[i] = loss(y, x[i], theta0[i]) with no step |
| ScalarSgd.Sgd3 | src/sgd.go:77-89 | sgd3 returns theta0 itself, updated in place to old[i] + step * loss(y, x[i], old[i]); it panics exactly when the closed form does, with the same cause (the nil function for an unknown name and non-empty x); on a panic the coordinates before the failing index are already updated and the rest are not |
| ScalarSgd.Sgd3CoordinateIsLocal | sgdlib.go:65-68 | each sgd3 coordinate depends only on y, x[i] and the original theta0[i] |
| ScalarSgd.Sgd3LinearStep | sgdlib.go:58-70 | sgd3 with "linear" succeeds when x covers theta0, and moves theta0[i] by 1/(eta + 1) of the scalar linear gradient |

## Left out

- Concurrency: goroutines, channels, `select` and blocking reply channels. The kernel is a sequential transition over one chosen order of messages, with no fairness.
- Floating point: `real` replaces float64, so rounding, NaN and Inf are not captured. `math.Exp` and `math.Pow` are uninterpreted parameters.
- StepSizes.OneShotStepSize: requires n != -1, because Go's 1/(float64(-1) + 1) is +Inf, which the reals cannot express.
- SgdLib.Sgd: requires eta != -1, for the same +Inf step size; Go would return a vector of infinities and NaNs there.
- ScalarSgd.Sgd3: requires step_n != -1, for the same +Inf step size.
- Aliasing in the kernel: theta_0 and the replied slice share memory with the kernel's theta in Go. The model uses value semantics, so a caller mutating a reply is not captured; nor is the other direction: the kernel keeps writing in place into the slice it replied with (sgd.go:43, 49) and into the caller's theta_0 (sgd.go:24), so in Go a reply already received changes under later observations, which `Kernel.SnapshotIdempotent` and `Kernel.StartAnswersInitialTheta` do not show. The aliasing of `sgd3` is modelled.
- Printing and logging (`fmt.Printf`, `log.Println`), the `main` functions and `sgd/main.go`: I/O with no logic.
- Random data generators (`lin_reg_rng`, `Lin_reg_gen`, `glm_rng`): randomness.
- The regularisation functions at sgd.go:104-129: they do not compile (they return a float64 as `[]float64`, and Elastic uses an undefined λ).
- Convergence tests, and tests whose referents are missing (`EtaConstant`, a channel-based `Sgd`, `Sqrt`): statistical claims over random data, or code that is not part of this model.
- Kernel.Step: the step function is modelled as total (it cannot panic), as EtaInverse and EtaBottou are; a panicking getStepSize (sgd.go:39) would also crash the Go kernel.
- Stats.GradPrefix: states its result through the closed form `PrefixLoss` rather than coordinate by coordinate. The coordinate-wise statements are on `Stats.GradLinearLoss`, `Stats.GradLogisticLoss` and `Stats.PrefixGradientAt`.
- ScalarSgd.Sgd3 (also): its contract speaks of the array before and after the call, so it is stated against `Sgd3Update`. The coordinate properties are proved on that closed form (`Sgd3CoordinateIsLocal`, `Sgd3LinearStep`).

## Findings

| source | as written | input that shows it | evidently intended | confidence | as-written member | corrected member |
|---|---|---|---|---|---|---|
| sgdlib/stats.go:58-61 | the dot-product accumulation and the gradient fill share one loop, so grad[i] uses the prefix sum of the first i + 1 terms | x = theta = [1, 1], y = 0 gives [-1, -2] | grad[i] = (y - theta . x) * x[i] with the full dot product, as in grad_linear_loss of sgdlib/sgdlib.go in the same package and every other copy, giving [-2, -2] | medium, not executed | Stats.PrefixLinearLossDiffers | SgdLib.GradLinearLoss |
| sgdlib/stats.go:71-74 | the logistic gradient fuses the accumulation into the fill loop in the same way, so grad[i] uses logit of the prefix sum of the first i + 1 terms | x = theta = [1, 1], y = 0 gives [-logit(1), -logit(2)] | grad[i] = (y - logit(theta . x)) * x[i] with the full dot product, as in GradLogisticLoss of sgd.go and its copies, giving [-logit(2), -logit(2)] | medium, not executed | Stats.PrefixLogisticLossDiffers | Gradients.GradLogisticLoss |

=== FILE: gradients.dfy ===
/**
 The full-dot-product loss gradients of sgd.go (GradLinearLoss,
 GradLogisticLoss), repeated with the same behaviour as grad_linear_loss and
 grad_logistic_loss in sgdKernel/sgd.go and sgdLib.go.

 Each Go function runs two loops: the first ranges over theta and reads
 x[i] to accumulate the estimate, the second ranges over x and writes
 grad[i] into a slice of length |theta|.  The first panics when x is
 shorter than theta, the second when x is longer, so the functions only
 return when |x| == |theta|.
 */
module Gradients {
  import opened Outcomes
  import opened RealMath

  /** Closed form of the full-dot-product gradient with link `link`, panics included. */
  function FullDotLoss(link: Link, x: Vec, y: real, theta: Vec): Result<Vec>
  {
    if |x| != |theta| then Panicked(IndexOutOfRange) else Ok(ResidualGradient(link, x, y, theta))
  }

  /** The linear-loss gradient as a function value, for plugging into the kernel. */
  function LinearLoss(x: Vec, y: real, theta: Vec): Result<Vec>
  {
    FullDotLoss(IdentityLink, x, y, theta)
  }

  /** The logistic-loss gradient as a function value, for plugging into the kernel. */
  function LogisticLoss(exp: Exp, x: Vec, y: real, theta: Vec): Result<Vec>
  {
    FullDotLoss(LogitLink(exp), x, y, theta)
  }

  /**
   The first Go loop, `for i, ti := range theta { yEst += x[i] * ti }`:
   it reads x at every index of theta.
   */
  method AccumulateEstimate(x: Vec, theta: Vec) returns (r: Result<real>)
    ensures r.Panicked? <==> |x| < |theta|
    ensures r.Panicked? ==> r.cause == IndexOutOfRange
    ensures r.Ok? ==> r.value == Dot(x, theta)
  {
    var yEst := 0.0;
    var i := 0;
    while i < |theta|
      invariant 0 <= i <= |theta| && i <= |x|
      invariant yEst == PrefixDot(x, theta, i)
    {
      if i >= |x| {
        return Panicked(IndexOutOfRange);
      }
      yEst := yEst + x[i] * theta[i];
      i := i + 1;
    }
    r := Ok(yEst);
  }

  /**
   The second Go loop, `for i, xi := range x { grad[i] = err * xi }`, over a
   fresh zero slice of length n: it writes grad at every index of x, and
   coordinates x does not reach keep their zero.
   */
  method FillAlongX(err: real, x: Vec, n: nat) returns (r: Result<Vec>)
    ensures r.Panicked? <==> n < |x|
    ensures r.Panicked? ==> r.cause == IndexOutOfRange
    ensures r.Ok? ==> |r.value| == n
    ensures r.Ok? ==> forall i :: 0 <= i < |x| ==> r.value[i] == err * x[i]
    ensures r.Ok? ==> forall i :: |x| <= i < n ==> r.value[i] == 0.0
  {
    var grad := seq(n, _ => 0.0);
    var i := 0;
    while i < |x|
      invariant 0 <= i <= |x| && i <= n
      invariant |grad| == n
      invariant forall j :: 0 <= j < i ==> grad[j] == err * x[j]
      invariant forall j :: i <= j < n ==> grad[j] == 0.0
    {
      if i >= |grad| {
        return Panicked(IndexOutOfRange);
      }
      grad := grad[i := err * x[i]];
      i := i + 1;
    }
    r := Ok(grad);
  }

  /** The two Go loops together, shared by the linear and logistic versions, which differ only in the link. */
  method GradFullDot(link: Link, x: Vec, y: real, theta: Vec) returns (r: Result<Vec>)
    ensures r.Panicked? <==> |x| != |theta|
    ensures r.Panicked? ==> r.cause == IndexOutOfRange
    ensures r.Ok? ==> |r.value| == |theta|
    ensures r.Ok? ==> forall i :: 0 <= i < |theta| ==> r.value[i] == (y - ApplyLink(link, Dot(x, theta))) * x[i]
    ensures r == FullDotLoss(link, x, y, theta)
  {
    var yEst := AccumulateEstimate(x, theta);
    if yEst.Panicked? {
      return Panicked(yEst.cause);
    }
    var err := y - ApplyLink(link, yEst.value);
    r := FillAlongX(err, x, |theta|);
    if r.Ok? {
      var expected := ResidualGradient(link, x, y, theta);
      assert forall i :: 0 <= i < |theta| ==> r.value[i] == expected[i];
      assert r.value == expected;
    }
  }

  /** GradLinearLoss: grad[i] = (y - theta . x) * x[i], panicking unless |x| == |theta|. */
  method GradLinearLoss(x: Vec, y: real, theta: Vec) returns (r: Result<Vec>)
    ensures r.Panicked? <==> |x| != |theta|
    ensures r.Ok? ==> |r.value| == |theta|
    ensures r.Ok? ==> forall i :: 0 <= i < |theta| ==> r.value[i] == (y - Dot(x, theta)) * x[i]
    ensures r == LinearLoss(x, y, theta)
  {
    r := GradFullDot(IdentityLink, x, y, theta);
  }

  /** GradLogisticLoss: grad[i] = (y - logit(theta . x)) * x[i], panicking unless |x| == |theta|. */
  method GradLogisticLoss(exp: Exp, x: Vec, y: real, theta: Vec) returns (r: Result<Vec>)
    ensures r.Panicked? <==> |x| != |theta|
    ensures r.Ok? ==> |r.value| == |theta|
    ensures r.Ok? ==> forall i :: 0 <= i < |theta| ==> r.value[i] == (y - Logit(exp, Dot(x, theta))) * x[i]
    ensures r == LogisticLoss(exp, x, y, theta)
  {
    r := GradFullDot(LogitLink(exp), x, y, theta);
  }

  /**
   The linear gradient is one residual times x: any two coordinates are in
   the same ratio as the corresponding coordinates of x.
   */
  lemma LinearGradientIsMultipleOfX(x: Vec, y: real, theta: Vec, i: nat, j: nat)
    requires |x| == |theta| && i < |theta| && j < |theta|
    ensures LinearLoss(x, y, theta).Ok?
    ensures LinearLoss(x, y, theta).value[i] * x[j] == LinearLoss(x, y, theta).value[j] * x[i]
  {
    ResidualGradientCollinear(IdentityLink, x, y, theta, i, j);
  }

  /**
   The two losses differ only in the link applied to the estimate: the
   logistic gradient is the linear one with y replaced by
   y - logit(e) + e, where e = theta . x.
   */
  lemma LogisticIsLinkedLinear(exp: Exp, x: Vec, y: real, theta: Vec)
    requires |x| == |theta|
    ensures var e := Dot(x, theta);
            LogisticLoss(exp, x, y, theta) == LinearLoss(x, y - Logit(exp, e) + e, theta)
  {
    var e := Dot(x, theta);
    var a := LogisticLoss(exp, x, y, theta).value;
    var b := LinearLoss(x, y - Logit(exp, e) + e, theta).value;
    assert |a| == |b|;
    forall i | 0 <= i < |a|
      ensures a[i] == b[i]
    {
    }
  }
}

=== FILE: kernel.dfy ===
/**
 The SGD kernel of sgd.go (SgdKernel), repeated with unexported names in
 sgdKernel/sgd.go and sgdKernel/sgdKernel.go, as a pure transition system.

 The Go kernel is a goroutine that owns (theta, n, tau, kappa) and serves
 four channels with `select`.  Here each channel becomes a message kind and
 one loop iteration becomes one `Step`; a sequence of messages is one
 interleaving the `select` may have picked.  A panic inside the goroutine
 (in the loss function, or when the gradient is shorter than theta) ends
 the program, so it is an absorbing `Crashed` state, as `Terminated` is
 after a quit message.
 */
module Kernel {
  import opened Outcomes
  import opened RealMath
  import opened Gradients
  import opened StepSizes

  /** The loss-gradient parameter J(x, y, theta); it may panic. */
  type LossFunc = (Vec, real, Vec) -> Result<Vec>

  datatype Obs = Obs(x: Vec, y: real)

  datatype Params = Params(tau: real, kappa: real)

  /** One value received on dataChan, paramChan, stateChan or quitChan. */
  datatype Msg = Data(obs: Obs) | SetParams(params: Params) | StateQuery | Quit

  datatype Kernel =
    | Running(theta: Vec, n: nat, tau: real, kappa: real)
    | Terminated
    | Crashed(cause: Panic)

  /** The state after one message, and the vector sent back on a state query's reply channel. */
  datatype Transition = Transition(next: Kernel, reply: Option<Vec>)

  /** What a run of messages leaves behind: the final state and every reply, in order. */
  datatype Trace = Trace(final: Kernel, replies: seq<Vec>)

  /** The state the goroutine starts in: theta := theta_0, n := 0, and tau, kappa at their zero values. */
  function Start(theta0: Vec): (k: Kernel)
    ensures k.Running? && k.theta == theta0 && k.n == 0
    ensures k.tau == 0.0 && k.kappa == 0.0
  {
    Running(theta0, 0, 0.0, 0.0)
  }

  /** One iteration of the kernel's `select` loop. */
  function Step(loss: LossFunc, stepSize: StepFunc, k: Kernel, m: Msg): (t: Transition)
    // a stopped kernel handles nothing and answers nothing
    ensures !k.Running? ==> t == Transition(k, None)
    // only a state query is answered, with the current theta, and it changes nothing
    ensures t.reply.Some? <==> k.Running? && m.StateQuery?
    ensures t.reply.Some? ==> t.reply.value == k.theta && t.next == k
    // a params message replaces tau and kappa and nothing else
    ensures k.Running? && m.SetParams? ==>
      t.next == Running(k.theta, k.n, m.params.tau, m.params.kappa)
    ensures k.Running? && m.Quit? ==> t.next == Terminated
    // only an observation can crash the kernel: when the loss panics or returns too short a gradient
    ensures t.next.Crashed? && !k.Crashed? ==> k.Running? && m.Data?
    ensures k.Running? && m.Data? ==>
      var g := loss(m.obs.x, m.obs.y, k.theta);
      (t.next.Running? <==> g.Ok? && |k.theta| <= |g.value|)
    // a failing observation crashes the kernel with the loss's own panic, or with an index
    // out of range when the gradient is too short for theta
    ensures k.Running? && m.Data? && !t.next.Running? ==>
      var g := loss(m.obs.x, m.obs.y, k.theta);
      t.next == Crashed(if g.Panicked? then g.cause else IndexOutOfRange)
    // an observation counts once, keeps the dimension and the schedule, and steps theta along the
    // gradient taken at the old theta, with the step size for the incremented count
    ensures k.Running? && m.Data? && t.next.Running? ==>
      var g := loss(m.obs.x, m.obs.y, k.theta).value;
      var eta := stepSize((k.n + 1) as real, k.tau, k.kappa);
      && t.next.n == k.n + 1
      && t.next.tau == k.tau && t.next.kappa == k.kappa
      && |t.next.theta| == |k.theta|
      && forall i :: 0 <= i < |k.theta| ==> t.next.theta[i] == k.theta[i] + eta * g[i]
  {
    match k
    case Terminated => Transition(k, None)
    case Crashed(_) => Transition(k, None)
    case Running(theta, n, tau, kappa) =>
      match m
      case Data(o) =>
        (match loss(o.x, o.y, theta)
         case Panicked(c) => Transition(Crashed(c), None)
         case Ok(grad) =>
           if |grad| < |theta| then Transition(Crashed(IndexOutOfRange), None)
           else
             var count := n + 1;
             var eta := stepSize(count as real, tau, kappa);
             Transition(Running(Advance(theta, eta, grad), count, tau, kappa), None))
      case SetParams(p) => Transition(Running(theta, n, p.tau, p.kappa), None)
      case StateQuery => Transition(k, Some(theta))
      case Quit => Transition(Terminated, None)
  }

  /** The kernel fed a sequence of messages, one at a time. */
  function Run(loss: LossFunc, stepSize: StepFunc, k: Kernel, msgs: seq<Msg>): (tr: Trace)
    // a kernel running at the end was running at the start: nothing restarts a stopped kernel
    ensures tr.final.Running? ==> k.Running?
    // a crash needs an observation: params, queries and quit never crash the kernel
    ensures tr.final.Crashed? ==> k.Crashed? || 0 < CountData(msgs)
    // only state queries are answered, each at most once
    ensures |tr.replies| <= CountQueries(msgs)
    decreases |msgs|
  {
    if |msgs| == 0 then Trace(k, [])
    else
      var t := Step(loss, stepSize, k, msgs[0]);
      var rest := Run(loss, stepSize, t.next, msgs[1..]);
      var answered := if t.reply.Some? then [t.reply.value] else [];
      Trace(rest.final, answered + rest.replies)
  }

  function CountData(msgs: seq<Msg>): nat
  {
    if |msgs| == 0 then 0 else (if msgs[0].Data? then 1 else 0) + CountData(msgs[1..])
  }

  function CountQueries(msgs: seq<Msg>): nat
  {
    if |msgs| == 0 then 0 else (if msgs[0].StateQuery? then 1 else 0) + CountQueries(msgs[1..])
  }

  /**
   Running a concatenation is running the first part, then the second from
   where the first stopped: every reply given in the first part is kept, in
   order and ahead of the second part's, even if the kernel stops later.
   */
  lemma {:induction false} RunAppend(loss: LossFunc, stepSize: StepFunc, k: Kernel, a: seq<Msg>, b: seq<Msg>)
    ensures var ta := Run(loss, stepSize, k, a);
            var tb := Run(loss, stepSize, ta.final, b);
            Run(loss, stepSize, k, a + b) == Trace(tb.final, ta.replies + tb.replies)
    decreases |a|
  {
    if |a| == 0 {
      assert a + b == b;
    } else {
      assert (a + b)[0] == a[0];
      assert (a + b)[1..] == a[1..] + b;
      var t := Step(loss, stepSize, k, a[0]);
      RunAppend(loss, stepSize, t.next, a[1..], b);
    }
  }

  /**
   A state query appended to any run is answered with the theta of the
   state that run reached, i.e. with every earlier observation fully
   applied, and only if the kernel is still running.
   */
  lemma QueryAnswersReachedState(loss: LossFunc, stepSize: StepFunc, k: Kernel, a: seq<Msg>)
    ensures var ta := Run(loss, stepSize, k, a);
            Run(loss, stepSize, k, a + [StateQuery]).replies
              == ta.replies + (if ta.final.Running? then [ta.final.theta] else [])
  {
    var ta := Run(loss, stepSize, k, a);
    RunAppend(loss, stepSize, k, a, [StateQuery]);
    assert [StateQuery][1..] == [];
  }

  /** After quit (or a crash) no further message is processed and nothing is answered. */
  lemma {:induction false} StoppedKernelIgnoresMessages(loss: LossFunc, stepSize: StepFunc, k: Kernel, msgs: seq<Msg>)
    requires !k.Running?
    ensures Run(loss, stepSize, k, msgs) == Trace(k, [])
    decreases |msgs|
  {
    if |msgs| > 0 {
      StoppedKernelIgnoresMessages(loss, stepSize, k, msgs[1..]);
    }
  }

  /** A quit message ends the kernel whatever follows it. */
  lemma QuitIsFinal(loss: LossFunc, stepSize: StepFunc, k: Kernel, msgs: seq<Msg>)
    requires k.Running?
    ensures Run(loss, stepSize, k, [Quit] + msgs) == Trace(Terminated, [])
  {
    var all := [Quit] + msgs;
    assert all[1..] == msgs;
    StoppedKernelIgnoresMessages(loss, stepSize, Terminated, msgs);
  }

  /**
   Over any run the kernel survives: n counts exactly the observations,
   theta keeps its dimension, every message that asked got an answer, and
   every answer has the dimension of theta.
   */
  lemma {:induction false} RunKeepsCountAndDimension(loss: LossFunc, stepSize: StepFunc, k: Kernel, msgs: seq<Msg>)
    requires k.Running?
    ensures var tr := Run(loss, stepSize, k, msgs);
            tr.final.Running? ==>
              && tr.final.n == k.n + CountData(msgs)
              && |tr.final.theta| == |k.theta|
              && |tr.replies| == CountQueries(msgs)
    ensures forall r :: r in Run(loss, stepSize, k, msgs).replies ==> |r| == |k.theta|
    decreases |msgs|
  {
    if |msgs| > 0 {
      var t := Step(loss, stepSize, k, msgs[0]);
      if t.next.Running? {
        RunKeepsCountAndDimension(loss, stepSize, t.next, msgs[1..]);
      } else {
        StoppedKernelIgnoresMessages(loss, stepSize, t.next, msgs[1..]);
      }
    }
  }

  /**
   Configuration and state queries alone never move the estimate: after
   any run of them theta and n are as before and every answer is that theta.
   */
  lemma {:induction false} ConfigurationKeepsEstimate(loss: LossFunc, stepSize: StepFunc, k: Kernel, msgs: seq<Msg>)
    requires k.Running?
    requires forall m :: m in msgs ==> m.SetParams? || m.StateQuery?
    ensures var tr := Run(loss, stepSize, k, msgs);
            tr.final.Running? && tr.final.theta == k.theta && tr.final.n == k.n
    ensures forall r :: r in Run(loss, stepSize, k, msgs).replies ==> r == k.theta
    decreases |msgs|
  {
    if |msgs| > 0 {
      assert msgs[0] in msgs;
      var t := Step(loss, stepSize, k, msgs[0]);
      forall m | m in msgs[1..]
        ensures m.SetParams? || m.StateQuery?
      {
        assert m in msgs;
      }
      ConfigurationKeepsEstimate(loss, stepSize, t.next, msgs[1..]);
    }
  }

  /** Two state queries with nothing in between return the same vector and change nothing. */
  lemma SnapshotIdempotent(loss: LossFunc, stepSize: StepFunc, k: Kernel)
    requires k.Running?
    ensures Run(loss, stepSize, k, [StateQuery, StateQuery]) == Trace(k, [k.theta, k.theta])
  {
    var msgs := [StateQuery, StateQuery];
    assert msgs[1..] == [StateQuery];
    assert msgs[1..][1..] == [];
  }

  /** A state query straight after start answers theta_0. */
  lemma StartAnswersInitialTheta(loss: LossFunc, stepSize: StepFunc, theta0: Vec)
    ensures Run(loss, stepSize, Start(theta0), [StateQuery]) == Trace(Start(theta0), [theta0])
  {
    assert [StateQuery][1..] == [];
  }

  /**
   The first observation after start asks the step function for K = 1 with
   tau = kappa = 0, and computes the gradient at theta_0.
   */
  lemma FirstObservationUsesInitialSchedule(loss: LossFunc, stepSize: StepFunc, theta0: Vec, o: Obs)
    requires loss(o.x, o.y, theta0).Ok? && |theta0| <= |loss(o.x, o.y, theta0).value|
    ensures Step(loss, stepSize, Start(theta0), Data(o)).next
         == Running(Advance(theta0, stepSize(1.0, 0.0, 0.0), loss(o.x, o.y, theta0).value), 1, 0.0, 0.0)
  {
  }

  /**
   New schedule parameters take effect from the very next observation:
   its step size is computed from them and not from the old ones.
   */
  lemma ParamsTakeEffectOnNextObservation(loss: LossFunc, stepSize: StepFunc, k: Kernel, p: Params, o: Obs)
    requires k.Running?
    requires loss(o.x, o.y, k.theta).Ok? && |k.theta| <= |loss(o.x, o.y, k.theta).value|
    ensures Run(loss, stepSize, k, [SetParams(p), Data(o)]).final
         == Running(Advance(k.theta, stepSize((k.n + 1) as real, p.tau, p.kappa), loss(o.x, o.y, k.theta).value),
                    k.n + 1, p.tau, p.kappa)
  {
    var msgs := [SetParams(p), Data(o)];
    assert msgs[1..] == [Data(o)];
    assert msgs[1..][1..] == [];
    var configured := Running(k.theta, k.n, p.tau, p.kappa);
    assert Step(loss, stepSize, k, SetParams(p)).next == configured;
    assert Run(loss, stepSize, k, msgs).final == Run(loss, stepSize, configured, [Data(o)]).final;
    assert Run(loss, stepSize, configured, [Data(o)]).final == Step(loss, stepSize, configured, Data(o)).next;
  }

  /**
   The kernel with the linear loss: an observation whose x does not match
   theta's dimension crashes it (the code does not reject it), and one that
   matches moves theta[i] by eta * (y - theta . x) * x[i].
   */
  lemma LinearKernelObservation(stepSize: StepFunc, k: Kernel, o: Obs)
    requires k.Running?
    ensures var next := Step(LinearLoss, stepSize, k, Data(o)).next;
            |o.x| != |k.theta| ==> next == Crashed(IndexOutOfRange)
    ensures var next := Step(LinearLoss, stepSize, k, Data(o)).next;
            var eta := stepSize((k.n + 1) as real, k.tau, k.kappa);
            |o.x| == |k.theta| ==>
              && next.Running? && next.n == k.n + 1 && |next.theta| == |k.theta|
              && forall i :: 0 <= i < |k.theta| ==>
                   next.theta[i] == k.theta[i] + eta * ((o.y - Dot(o.x, k.theta)) * o.x[i])
  {
  }

  /** The kernel with the logistic loss, as for the linear one with the estimate passed through logit. */
  lemma LogisticKernelObservation(exp: Exp, stepSize: StepFunc, k: Kernel, o: Obs)
    requires k.Running?
    ensures var loss := (x: Vec, y: real, theta: Vec) => LogisticLoss(exp, x, y, theta);
            var next := Step(loss, stepSize, k, Data(o)).next;
            var eta := stepSize((k.n + 1) as real, k.tau, k.kappa);
            && (|o.x| != |k.theta| ==> next == Crashed(IndexOutOfRange))
            && (|o.x| == |k.theta| ==>
                  && next.Running? && next.n == k.n + 1 && |next.theta| == |k.theta|
                  && forall i :: 0 <= i < |k.theta| ==>
                       next.theta[i] == k.theta[i] + eta * ((o.y - Logit(exp, Dot(o.x, k.theta))) * o.x[i]))
  {
  }

  /**
   Driven by the Bottou rule without any params message, tau and kappa stay
   at their zero values, so every observation steps by Pow(K, 0): the
   un-negated exponent 0 gives no decay at all.
   */
  lemma BottouWithoutParamsStepsByPowZero(pow: Pow, loss: LossFunc, theta: Vec, n: nat, o: Obs, i: nat)
    requires loss(o.x, o.y, theta).Ok? && |theta| <= |loss(o.x, o.y, theta).value| && i < |theta|
    ensures var next := Step(loss, BottouSchedule(pow), Running(theta, n, 0.0, 0.0), Data(o)).next;
            next.Running? && next.tau == 0.0 && next.kappa == 0.0
            && next.theta[i] == theta[i] + pow((n + 1) as real, 0.0) * loss(o.x, o.y, theta).value[i]
  {
    var count := (n + 1) as real;
    assert BottouSchedule(pow)(count, 0.0, 0.0) == pow(0.0 + count, 0.0);
    assert 0.0 + count == count;
  }

  /** With EtaInverse plugged in, the n-th observation (counting from 1) moves theta by grad / n. */
  lemma InverseScheduleDividesByCount(loss: LossFunc, k: Kernel, o: Obs, i: nat)
    requires k.Running? && i < |k.theta|
    requires loss(o.x, o.y, k.theta).Ok? && |k.theta| <= |loss(o.x, o.y, k.theta).value|
    ensures var next := Step(loss, EtaInverse, k, Data(o)).next;
            var g := loss(o.x, o.y, k.theta).value;
            (next.theta[i] - k.theta[i]) * (k.n + 1) as real == g[i]
  {
    var next := Step(loss, EtaInverse, k, Data(o)).next;
    var g := loss(o.x, o.y, k.theta).value;
    var count := (k.n + 1) as real;
    var eta := EtaInverse(count, k.tau, k.kappa);
    assert next.theta[i] - k.theta[i] == eta * g[i];
    assert eta * count == 1.0;
    assert (eta * g[i]) * count == (eta * count) * g[i];
  }

  /** The state with the schedule parameters forgotten: what the estimate and the count alone determine. */
  function Forget(k: Kernel): Kernel
  {
    if k.Running? then Running(k.theta, k.n, 0.0, 0.0) else k
  }

  /** The messages that can move the estimate or stop the kernel: observations and quit. */
  function DataAndQuit(msgs: seq<Msg>): seq<Msg>
  {
    if |msgs| == 0 then []
    else (if msgs[0].Data? || msgs[0].Quit? then [msgs[0]] else []) + DataAndQuit(msgs[1..])
  }

  /**
   Since EtaInverse does not read tau and kappa, a kernel running it ends
   with the same estimate, count and status whether or not the params and
   state-query messages are delivered, from any two states that differ only
   in their schedule parameters.
   */
  lemma {:induction false} InverseScheduleIgnoresConfiguration(loss: LossFunc, k: Kernel, k': Kernel, msgs: seq<Msg>)
    requires Forget(k) == Forget(k')
    ensures Forget(Run(loss, EtaInverse, k, msgs).final) == Forget(Run(loss, EtaInverse, k', DataAndQuit(msgs)).final)
    decreases |msgs|
  {
    if |msgs| > 0 {
      var m := msgs[0];
      var t := Step(loss, EtaInverse, k, m);
      assert Run(loss, EtaInverse, k, msgs).final == Run(loss, EtaInverse, t.next, msgs[1..]).final;
      if m.Data? || m.Quit? {
        var filtered := DataAndQuit(msgs);
        assert filtered == [m] + DataAndQuit(msgs[1..]);
        assert filtered[0] == m && filtered[1..] == DataAndQuit(msgs[1..]);
        var t' := Step(loss, EtaInverse, k', m);
        if k.Running? && m.Data? {
          EtaInverseIgnoresSchedule((k.n + 1) as real, k.tau, k.kappa, k'.tau, k'.kappa);
        }
        assert Forget(t.next) == Forget(t'.next);
        InverseScheduleIgnoresConfiguration(loss, t.next, t'.next, msgs[1..]);
      } else {
        assert DataAndQuit(msgs) == DataAndQuit(msgs[1..]);
        assert Forget(t.next) == Forget(k');
        InverseScheduleIgnoresConfiguration(loss, t.next, k', msgs[1..]);
      }
    }
  }
}

=== FILE: outcomes.dfy ===
/**
 Failure-carrying datatypes for the Go runtime behaviour the model needs.

 The Go code never returns an error value: when it goes wrong it panics,
 either by indexing a slice out of range or by calling the nil function a
 map lookup yields for a missing key.  Both are made explicit here.
 */
module Outcomes {

  /** The two kinds of Go runtime panic the modelled code can raise. */
  datatype Panic = IndexOutOfRange | NilFunctionCall

  /** Either the value the Go function returns, or the panic that aborts it. */
  datatype Result<+T> = Ok(value: T) | Panicked(cause: Panic)

  datatype Option<+T> = None | Some(value: T)
}

=== FILE: realmath.dfy ===
/**
 Real-number stand-ins for the float64 arithmetic the SGD code uses.

 Vectors are `seq<real>`.  `math.Exp` and `math.Pow` cannot be defined over
 the reals here, so they are parameters: `Exp` is any positive function
 (the only fact about the exponential the code relies on, since it divides
 by it), `Pow` is any function of two reals.
 */
module RealMath {

  type Vec = seq<real>

  type PosReal = r: real | 0.0 < r witness 1.0

  /** A stand-in for math.Exp: uninterpreted except that its values are positive. */
  type Exp = real -> PosReal

  /** A stand-in for math.Pow, entirely uninterpreted. */
  type Pow = (real, real) -> real

  /** The identity link: the estimate is passed on unchanged. */
  function Identity(z: real): (r: real)
    ensures r == z
  {
    z
  }

  /** The link the source calls `logit`: 1 / (1 + e^-z), i.e. the sigmoid. */
  function Logit(exp: Exp, z: real): (p: real)
    ensures 0.0 < p < 1.0
    ensures exp(-z) == 1.0 ==> p == 0.5
  {
    1.0 / (1.0 + exp(-z))
  }

  /** The two link functions of the source, as a tagged variant. */
  datatype Link = IdentityLink | LogitLink(exp: Exp)

  function ApplyLink(link: Link, z: real): real
  {
    match link
    case IdentityLink => Identity(z)
    case LogitLink(exp) => Logit(exp, z)
  }

  /** The running estimate after k rounds of `yEst += x[j] * theta[j]`, j = 0, 1, ... */
  function PrefixDot(x: Vec, theta: Vec, k: nat): real
    requires k <= |x| && k <= |theta|
  {
    if k == 0 then 0.0 else PrefixDot(x, theta, k - 1) + x[k - 1] * theta[k - 1]
  }

  /** theta . x over the coordinates of theta (x may be longer). */
  function Dot(x: Vec, theta: Vec): real
    requires |theta| <= |x|
  {
    PrefixDot(x, theta, |theta|)
  }

  /**
   The gradient vector every full-dot-product variant computes: one residual
   y - link(theta . x), shared by all coordinates, times x[i].
   */
  function ResidualGradient(link: Link, x: Vec, y: real, theta: Vec): Vec
    requires |theta| <= |x|
  {
    var err := y - ApplyLink(link, Dot(x, theta));
    seq(|theta|, i requires 0 <= i < |theta| => err * x[i])
  }

  /** One step along a gradient: theta[i] + eta * grad[i] over the coordinates of theta. */
  function Advance(theta: Vec, eta: real, grad: Vec): Vec
    requires |theta| <= |grad|
  {
    seq(|theta|, i requires 0 <= i < |theta| => theta[i] + eta * grad[i])
  }

  /** theta . x summed from the front, as an independent reference for `Dot`. */
  function DotFromFront(x: Vec, theta: Vec): real
    requires |theta| <= |x|
    decreases |theta|
  {
    if |theta| == 0 then 0.0 else x[0] * theta[0] + DotFromFront(x[1..], theta[1..])
  }

  lemma {:induction false} PrefixDotShift(x: Vec, theta: Vec, k: nat)
    requires 0 < |theta| <= |x| && k < |theta|
    ensures PrefixDot(x, theta, k + 1) == x[0] * theta[0] + PrefixDot(x[1..], theta[1..], k)
  {
    if k > 0 {
      PrefixDotShift(x, theta, k - 1);
    }
  }

  /**
   The dot product does not depend on the order of accumulation: the
   left-to-right running sum equals the sum taken from the front.
   */
  lemma {:induction false} DotOrderIrrelevant(x: Vec, theta: Vec)
    requires |theta| <= |x|
    ensures Dot(x, theta) == DotFromFront(x, theta)
    decreases |theta|
  {
    if |theta| > 0 {
      DotOrderIrrelevant(x[1..], theta[1..]);
      PrefixDotShift(x, theta, |theta| - 1);
    }
  }

  /** Every coordinate of the residual gradient is the same multiple of x: it is collinear with x. */
  lemma ResidualGradientCollinear(link: Link, x: Vec, y: real, theta: Vec, i: nat, j: nat)
    requires |theta| <= |x| && i < |theta| && j < |theta|
    ensures ResidualGradient(link, x, y, theta)[i] * x[j] == ResidualGradient(link, x, y, theta)[j] * x[i]
  {
    var err := y - ApplyLink(link, Dot(x, theta));
    calc {
      ResidualGradient(link, x, y, theta)[i] * x[j];
      (err * x[i]) * x[j];
      { assert (err * x[i]) * x[j] == (err * x[j]) * x[i]; }
      (err * x[j]) * x[i];
      ResidualGradient(link, x, y, theta)[j] * x[i];
    }
  }
}

=== FILE: registry.dfy ===
/**
 The string-keyed `loss_map` lookup.  Every `loss_map` in the source
 (sgdlib/sgdlib.go, sgdlib/stats.go, src/sgd.go, sgdlib.go) has the same
 two keys; what they map to differs per file and is given there.  A Go map
 lookup with a missing key yields the nil function, and calling it panics.
 */
module Registry {
  import opened Outcomes

  datatype LossKind = Linear | Logistic

  /** loss_map[name], with None for the nil function of a missing key. */
  function LossMap(name: string): (kind: Option<LossKind>)
    ensures kind.Some? <==> name == "linear" || name == "logistic"
    ensures kind == Some(Linear) <==> name == "linear"
    ensures kind == Some(Logistic) <==> name == "logistic"
  {
    if name == "linear" then Some(Linear)
    else if name == "logistic" then Some(Logistic)
    else None
  }
}

=== FILE: scalar.dfy ===
/**
 The scalar, coordinate-wise updates of src/sgd.go (sgd1, sgd2, sgd3), whose
 scalar gradients and sgd3 are repeated in sgdlib.go.

 Here a "loss" maps one y, one x[i] and one theta0[i] to a number, and the
 updates apply it coordinate by coordinate, so no coordinate sees another.
 sgd2 and sgd3 look the loss up by name inside the loop, so with an empty
 theta0 they never call it and never panic, whatever the name.
 */
module ScalarSgd {
  import opened Outcomes
  import opened RealMath
  import opened Registry
  import opened StepSizes
  import Gradients

  /** grad_linear_loss: (y - x theta) x.  It vanishes exactly at a zero input or a perfect fit. */
  function GradLinearLoss(y: real, x: real, theta: real): (g: real)
    ensures g == 0.0 <==> x == 0.0 || y == x * theta
  {
    (y - x * theta) * x
  }

  /**
   grad_logistic_loss: (y - 1 / exp(-(x theta))) x.  It vanishes exactly at a
   zero input or where y equals the estimate 1 / exp(-(x theta)).
   */
  function GradLogisticLoss(exp: Exp, y: real, x: real, theta: real): (g: real)
    ensures g == 0.0 <==> x == 0.0 || y == 1.0 / exp(-(x * theta))
  {
    (y - 1.0 / exp(-(x * theta))) * x
  }

  /** The function loss_map holds under each known name. */
  function Loss(exp: Exp, kind: LossKind, y: real, x: real, theta: real): real
  {
    match kind
    case Linear => GradLinearLoss(y, x, theta)
    case Logistic => GradLogisticLoss(exp, y, x, theta)
  }

  /** The scalar linear gradient is the vector one in one dimension. */
  lemma ScalarLinearIsOneDimensional(y: real, x: real, theta: real)
    ensures Gradients.LinearLoss([x], y, [theta]) == Ok([GradLinearLoss(y, x, theta)])
  {
    assert PrefixDot([x], [theta], 0) == 0.0;
    assert Dot([x], [theta]) == x * theta;
    var g := ResidualGradient(IdentityLink, [x], y, [theta]);
    assert |g| == 1 && g[0] == (y - x * theta) * x;
    assert ResidualGradient(IdentityLink, [x], y, [theta]) == [GradLinearLoss(y, x, theta)];
  }

  /**
   Wherever exp(-a) is the reciprocal of exp(a), as for the true
   exponential, the scalar logistic gradient is (y - exp(x theta)) x:
   the estimate is e^(x theta), not the sigmoid 1 / (1 + e^-(x theta)).
   */
  lemma ScalarLogisticIsExponential(exp: Exp, y: real, x: real, theta: real)
    requires exp(-(x * theta)) * exp(x * theta) == 1.0
    ensures GradLogisticLoss(exp, y, x, theta) == (y - exp(x * theta)) * x
  {
    var e := exp(-(x * theta));
    assert 1.0 / e == exp(x * theta);
  }

  /**
   So it disagrees with the vector logistic gradient of sgd.go even in one
   dimension: at x = 1, theta = 0 the estimates are 1 and 1/2.
   */
  lemma ScalarLogisticIsNotSigmoid(exp: Exp, y: real)
    requires exp(0.0) == 1.0
    ensures GradLogisticLoss(exp, y, 1.0, 0.0) == y - 1.0
    ensures Gradients.LogisticLoss(exp, [1.0], y, [0.0]) == Ok([y - 0.5])
  {
    assert PrefixDot([1.0], [0.0], 0) == 0.0;
    assert Dot([1.0], [0.0]) == 0.0;
    assert Logit(exp, 0.0) == 0.5;
    assert ResidualGradient(LogitLink(exp), [1.0], y, [0.0]) == [y - 0.5];
  }

  /** sgd1: theta1[i] = grad_linear_loss(y[i], x[i], theta0[i]) for every coordinate of theta0. */
  method Sgd1(y: Vec, x: Vec, theta0: Vec) returns (r: Result<Vec>)
    ensures r.Panicked? <==> |y| < |theta0| || |x| < |theta0|
    ensures r.Panicked? ==> r.cause == IndexOutOfRange
    ensures r.Ok? ==> |r.value| == |theta0|
    ensures r.Ok? ==> forall i :: 0 <= i < |theta0| ==> r.value[i] == GradLinearLoss(y[i], x[i], theta0[i])
    // each coordinate is the full-dot linear gradient of the one-dimensional problem (y[i], x[i], theta0[i])
    ensures r.Ok? ==> forall i :: 0 <= i < |theta0| ==>
      Gradients.LinearLoss([x[i]], y[i], [theta0[i]]) == Ok([r.value[i]])
  {
    var theta1 := seq(|theta0|, _ => 0.0);
    var i := 0;
    while i < |theta0|
      invariant 0 <= i <= |theta0| && i <= |y| && i <= |x|
      invariant |theta1| == |theta0|
      invariant forall j :: 0 <= j < i ==> theta1[j] == GradLinearLoss(y[j], x[j], theta0[j])
    {
      if i >= |y| || i >= |x| {
        return Panicked(IndexOutOfRange);
      }
      theta1 := theta1[i := GradLinearLoss(y[i], x[i], theta0[i])];
      i := i + 1;
    }
    forall j | 0 <= j < |theta0|
      ensures Gradients.LinearLoss([x[j]], y[j], [theta0[j]]) == Ok([theta1[j]])
    {
      ScalarLinearIsOneDimensional(y[j], x[j], theta0[j]);
    }
    r := Ok(theta1);
  }

  /**
   Closed form of sgd2: the first iteration evaluates x[0] before calling the
   looked-up function, so an empty x panics on the index even for an unknown
   name; later iterations panic where x runs out.
   */
  function CoordinateLoss(exp: Exp, y: real, x: Vec, theta0: Vec, lossFunc: string): Result<Vec>
  {
    if |theta0| == 0 then Ok([])
    else if |x| == 0 then Panicked(IndexOutOfRange)
    else if LossMap(lossFunc).None? then Panicked(NilFunctionCall)
    else if |x| < |theta0| then Panicked(IndexOutOfRange)
    else
      var kind := LossMap(lossFunc).value;
      Ok(seq(|theta0|, i requires 0 <= i < |theta0| => Loss(exp, kind, y, x[i], theta0[i])))
  }

  /** sgd2: theta1[i] = loss_map[loss_func](y, x[i], theta0[i]), no step applied. */
  method Sgd2(exp: Exp, y: real, x: Vec, theta0: Vec, lossFunc: string) returns (r: Result<Vec>)
    ensures r.Ok? <==> |theta0| == 0 || (LossMap(lossFunc).Some? && |theta0| <= |x|)
    ensures r.Panicked? ==> (r.cause == NilFunctionCall <==> 0 < |x| && LossMap(lossFunc).None?)
    ensures r.Ok? ==> |r.value| == |theta0|
    ensures r.Ok? ==> forall i :: 0 <= i < |theta0| ==>
      r.value[i] == Loss(exp, LossMap(lossFunc).value, y, x[i], theta0[i])
    ensures r == CoordinateLoss(exp, y, x, theta0, lossFunc)
  {
    var theta1 := seq(|theta0|, _ => 0.0);
    var i := 0;
    while i < |theta0|
      invariant 0 <= i <= |theta0| && i <= |x|
      invariant 0 < i ==> LossMap(lossFunc).Some?
      invariant |theta1| == |theta0|
      invariant forall j :: 0 <= j < i ==> theta1[j] == Loss(exp, LossMap(lossFunc).value, y, x[j], theta0[j])
    {
      var loss := LossMap(lossFunc);
      if i >= |x| {
        return Panicked(IndexOutOfRange);
      }
      if loss.None? {
        return Panicked(NilFunctionCall);
      }
      theta1 := theta1[i := Loss(exp, loss.value, y, x[i], theta0[i])];
      i := i + 1;
    }
    r := Ok(theta1);
    if 0 < |theta0| {
      var expected := CoordinateLoss(exp, y, x, theta0, lossFunc).value;
      assert forall j :: 0 <= j < |theta0| ==> theta1[j] == expected[j];
      assert theta1 == expected;
    }
  }

  /** Closed form of sgd3 on the values it starts from: one step of size 1/(step_n + 1) along sgd2. */
  function Sgd3Update(exp: Exp, y: real, x: Vec, theta0: Vec, lossFunc: string, stepN: int): Result<Vec>
    requires stepN != -1
  {
    match CoordinateLoss(exp, y, x, theta0, lossFunc)
    case Panicked(c) => Panicked(c)
    case Ok(g) => Ok(Advance(theta0, OneShotStepSize(stepN), g))
  }

  /**
   sgd3: theta_hat is theta0 itself, updated in place coordinate by
   coordinate.  Each iteration reads theta0[i] before writing theta_hat[i]
   and no other index, so the aliasing gives the same values as a fresh
   result; on a panic the coordinates before the failing index are
   already updated and the rest are not.
   */
  method Sgd3(exp: Exp, y: real, x: Vec, theta0: array<real>, lossFunc: string, stepN: int)
    returns (thetaHat: array<real>, failure: Option<Panic>)
    requires stepN != -1
    modifies theta0
    ensures thetaHat == theta0
    ensures failure.None? <==> Sgd3Update(exp, y, x, old(theta0[..]), lossFunc, stepN).Ok?
    ensures failure.None? ==> theta0[..] == Sgd3Update(exp, y, x, old(theta0[..]), lossFunc, stepN).value
    ensures failure.Some? ==>
      && Sgd3Update(exp, y, x, old(theta0[..]), lossFunc, stepN).Panicked?
      && failure.value == Sgd3Update(exp, y, x, old(theta0[..]), lossFunc, stepN).cause
    ensures failure.Some? && LossMap(lossFunc).None? ==> theta0[..] == old(theta0[..])
    ensures failure.Some? && LossMap(lossFunc).Some? ==>
      && failure.value == IndexOutOfRange
      && |x| < theta0.Length
      && (forall i :: 0 <= i < |x| ==>
            theta0[i] == old(theta0[i]) + OneShotStepSize(stepN) * Loss(exp, LossMap(lossFunc).value, y, x[i], old(theta0[i])))
      && (forall i :: |x| <= i < theta0.Length ==> theta0[i] == old(theta0[i]))
  {
    ghost var original := theta0[..];
    thetaHat := theta0;
    var stepSize := OneShotStepSize(stepN);
    var i := 0;
    while i < theta0.Length
      invariant 0 <= i <= theta0.Length && i <= |x|
      invariant 0 < i ==> LossMap(lossFunc).Some?
      invariant forall j :: 0 <= j < i ==>
        theta0[j] == original[j] + stepSize * Loss(exp, LossMap(lossFunc).value, y, x[j], original[j])
      invariant forall j :: i <= j < theta0.Length ==> theta0[j] == original[j]
    {
      var loss := LossMap(lossFunc);
      if i >= |x| {
        return thetaHat, Some(IndexOutOfRange);
      }
      if loss.None? {
        return thetaHat, Some(NilFunctionCall);
      }
      var thetaEst := Loss(exp, loss.value, y, x[i], theta0[i]);
      thetaHat[i] := thetaHat[i] + stepSize * thetaEst;
      i := i + 1;
    }
    failure := None;
    if 0 < theta0.Length {
      var expected := Sgd3Update(exp, y, x, original, lossFunc, stepN).value;
      assert forall j :: 0 <= j < theta0.Length ==> theta0[j] == expected[j];
      assert theta0[..] == expected;
    } else {
      assert theta0[..] == [];
    }
  }

  /**
   Each coordinate of the sgd3 result depends only on y, x[i] and the
   original theta0[i]: two inputs that agree there agree in the result.
   */
  lemma Sgd3CoordinateIsLocal(exp: Exp, y: real, x: Vec, x': Vec, theta0: Vec, theta0': Vec,
                              lossFunc: string, stepN: int, i: nat)
    requires stepN != -1
    requires Sgd3Update(exp, y, x, theta0, lossFunc, stepN).Ok?
    requires Sgd3Update(exp, y, x', theta0', lossFunc, stepN).Ok?
    requires i < |theta0| && i < |theta0'| && x[i] == x'[i] && theta0[i] == theta0'[i]
    ensures Sgd3Update(exp, y, x, theta0, lossFunc, stepN).value[i]
         == Sgd3Update(exp, y, x', theta0', lossFunc, stepN).value[i]
  {
  }

  /** sgd3 with the linear loss moves theta0[i] by 1/(step_n + 1) of the scalar linear gradient. */
  lemma Sgd3LinearStep(exp: Exp, y: real, x: Vec, theta0: Vec, stepN: nat, i: nat)
    requires |theta0| <= |x| && i < |theta0|
    ensures Sgd3Update(exp, y, x, theta0, "linear", stepN).Ok?
    ensures (Sgd3Update(exp, y, x, theta0, "linear", stepN).value[i] - theta0[i]) * (stepN as real + 1.0)
         == (y - x[i] * theta0[i]) * x[i]
  {
    var step := OneShotStepSize(stepN);
    var g := (y - x[i] * theta0[i]) * x[i];
    assert Sgd3Update(exp, y, x, theta0, "linear", stepN).value[i] - theta0[i] == step * g;
    assert (step * g) * (stepN as real + 1.0) == (step * (stepN as real + 1.0)) * g;
  }
}

=== FILE: sgdlib.dfy ===
/**
 The one-shot update of sgdlib/sgdlib.go: its own grad_linear_loss (both
 loops bounded by len(theta), so a longer x is allowed), the placeholder
 grad_logistic_loss, and Sgd, which looks the loss up by name and returns
 a fresh vector one step along the gradient.
 */
module SgdLib {
  import opened Outcomes
  import opened RealMath
  import opened Registry
  import opened StepSizes
  import Gradients
  import Kernel

  /** Closed form of this file's linear gradient: it only needs x to be at least as long as theta. */
  function LinearLoss(y: real, x: Vec, theta: Vec): Result<Vec>
  {
    if |x| < |theta| then Panicked(IndexOutOfRange) else Ok(ResidualGradient(IdentityLink, x, y, theta))
  }

  /**
   grad_linear_loss: the whole estimate theta . x is accumulated before any
   coordinate is written, then grad[i] = (y - theta . x) * x[i].
   */
  method GradLinearLoss(y: real, x: Vec, theta: Vec) returns (r: Result<Vec>)
    ensures r.Panicked? <==> |x| < |theta|
    ensures r.Panicked? ==> r.cause == IndexOutOfRange
    ensures r.Ok? ==> |r.value| == |theta|
    ensures r.Ok? ==> forall i :: 0 <= i < |theta| ==> r.value[i] == (y - Dot(x, theta)) * x[i]
    ensures r == LinearLoss(y, x, theta)
  {
    var yEst := Gradients.AccumulateEstimate(x, theta);
    if yEst.Panicked? {
      return Panicked(yEst.cause);
    }
    var grad := seq(|theta|, _ => 0.0);
    var i := 0;
    while i < |theta|
      invariant 0 <= i <= |theta| <= |x|
      invariant |grad| == |theta|
      invariant forall j :: 0 <= j < i ==> grad[j] == (y - yEst.value) * x[j]
    {
      grad := grad[i := (y - yEst.value) * x[i]];
      i := i + 1;
    }
    var expected := ResidualGradient(IdentityLink, x, y, theta);
    assert forall j :: 0 <= j < |theta| ==> grad[j] == expected[j];
    assert grad == expected;
    r := Ok(grad);
  }

  /** grad_logistic_loss: a placeholder returning the one-element zero vector. */
  function GradLogisticLoss(y: real, x: Vec, theta: Vec): (grad: Vec)
    ensures |grad| == 1 && grad[0] == 0.0
  {
    [0.0]
  }

  /** The placeholder ignores all its inputs, and its one coordinate is zero. */
  lemma LogisticPlaceholderIgnoresInputs(y: real, x: Vec, theta: Vec, y': real, x': Vec, theta': Vec)
    ensures GradLogisticLoss(y, x, theta) == GradLogisticLoss(y', x', theta')
    ensures |GradLogisticLoss(y, x, theta)| == 1 && GradLogisticLoss(y, x, theta)[0] == 0.0
  {
  }

  /** loss_map[loss_func](y, x, theta0): the nil function panics when called. */
  function LookupLoss(name: string, y: real, x: Vec, theta: Vec): (r: Result<Vec>)
    ensures LossMap(name).None? <==> r == Panicked(NilFunctionCall)
    ensures name == "linear" ==> r == LinearLoss(y, x, theta)
    ensures name == "logistic" ==> r == Ok([0.0])
  {
    match LossMap(name)
    case None => Panicked(NilFunctionCall)
    case Some(Linear) => LinearLoss(y, x, theta)
    case Some(Logistic) => Ok(GradLogisticLoss(y, x, theta))
  }

  /** Closed form of Sgd. */
  function SgdUpdate(y: real, x: Vec, theta0: Vec, lossFunc: string, eta: int): Result<Vec>
    requires eta != -1
  {
    match LookupLoss(lossFunc, y, x, theta0)
    case Panicked(c) => Panicked(c)
    case Ok(grad) =>
      if |grad| < |theta0| then Panicked(IndexOutOfRange)
      else Ok(Advance(theta0, OneShotStepSize(eta), grad))
  }

  /**
   Sgd: step_size = 1/(eta + 1), the gradient from the named loss, then a
   fresh theta_hat[i] = theta0[i] + step_size * grad[i].
   */
  method Sgd(y: real, x: Vec, theta0: Vec, lossFunc: string, eta: int) returns (r: Result<Vec>)
    requires eta != -1
    // an unknown name calls a nil function; "linear" needs |x| >= |theta0|; the one-element
    // logistic placeholder is indexed out of range as soon as theta0 has a second coordinate
    ensures r.Ok? <==>
      || (lossFunc == "linear" && |theta0| <= |x|)
      || (lossFunc == "logistic" && |theta0| <= 1)
    ensures LossMap(lossFunc).None? ==> r == Panicked(NilFunctionCall)
    ensures LossMap(lossFunc).Some? && r.Panicked? ==> r.cause == IndexOutOfRange
    ensures r.Ok? ==> |r.value| == |theta0|
    ensures r.Ok? && lossFunc == "linear" ==>
      forall i :: 0 <= i < |theta0| ==>
        r.value[i] == theta0[i] + OneShotStepSize(eta) * ((y - Dot(x, theta0)) * x[i])
    // the placeholder gradient is zero, so a successful logistic step changes nothing
    ensures r.Ok? && lossFunc == "logistic" ==> r.value == theta0
    ensures r == SgdUpdate(y, x, theta0, lossFunc, eta)
  {
    var thetaHat := seq(|theta0|, _ => 0.0);
    var stepSize := OneShotStepSize(eta);
    var grad: Vec;
    match LossMap(lossFunc) {
      case None =>
        return Panicked(NilFunctionCall);
      case Some(Linear) =>
        var g := GradLinearLoss(y, x, theta0);
        if g.Panicked? {
          return Panicked(g.cause);
        }
        grad := g.value;
      case Some(Logistic) =>
        grad := GradLogisticLoss(y, x, theta0);
    }
    var i := 0;
    while i < |theta0|
      invariant 0 <= i <= |theta0| && i <= |grad|
      invariant |thetaHat| == |theta0|
      invariant forall j :: 0 <= j < i ==> thetaHat[j] == theta0[j] + stepSize * grad[j]
    {
      if i >= |grad| {
        return Panicked(IndexOutOfRange);
      }
      thetaHat := thetaHat[i := theta0[i] + stepSize * grad[i]];
      i := i + 1;
    }
    var expected := Advance(theta0, stepSize, grad);
    assert forall j :: 0 <= j < |theta0| ==> thetaHat[j] == expected[j];
    assert thetaHat == expected;
    r := Ok(thetaHat);
  }

  /**
   A linear Sgd call with eta = n is exactly the kernel's handling of its
   (n+1)-th observation under EtaInverse, whatever tau and kappa hold.
   */
  lemma SgdIsOneKernelStep(o: Kernel.Obs, theta: Vec, n: nat, tau: real, kappa: real)
    requires |o.x| == |theta|
    ensures var k := Kernel.Running(theta, n, tau, kappa);
            var next := Kernel.Step(Gradients.LinearLoss, EtaInverse, k, Kernel.Data(o)).next;
            SgdUpdate(o.y, o.x, theta, "linear", n) == Ok(next.theta)
  {
    OneShotIsInverseOfSuccessor(n, tau, kappa);
  }
}

=== FILE: stats.dfy ===
/**
 The link and loss functions of sgdlib/stats.go.

 Its gradients fuse the estimate and the fill into one loop over theta,
 so coordinate i is written with the running estimate after i + 1 terms
 instead of the full theta . x: grad[i] = (y - link(sum_{j <= i} x[j] theta[j])) * x[i].
 Only the last coordinate sees the whole dot product.
 */
module Stats {
  import opened Outcomes
  import opened RealMath
  import opened Registry
  import SgdLib
  import Gradients

  /** link_map[name]: the identity and logit links by name, None (the nil function) otherwise. */
  function LinkMap(name: string, exp: Exp): (link: Option<Link>)
    ensures link.Some? <==> name == "identity" || name == "logit"
    ensures link == Some(IdentityLink) <==> name == "identity"
    ensures name == "logit" ==> link == Some(LogitLink(exp))
  {
    if name == "identity" then Some(IdentityLink)
    else if name == "logit" then Some(LogitLink(exp))
    else None
  }

  /** The identity link looked up by name returns its argument, e.g. 2 for 2. */
  lemma IdentityLinkByName(exp: Exp, z: real)
    ensures LinkMap("identity", exp).Some?
    ensures ApplyLink(LinkMap("identity", exp).value, z) == z
    ensures ApplyLink(LinkMap("identity", exp).value, 2.0) == 2.0
  {
  }

  /**
   The logit link looked up by name is a probability, one half at 0 when
   exp(0) = 1, and at 2 it is 1 / (1 + exp(-2)).
   */
  lemma LogitLinkByName(exp: Exp, z: real)
    ensures LinkMap("logit", exp).Some?
    ensures 0.0 < ApplyLink(LinkMap("logit", exp).value, z) < 1.0
    ensures exp(-0.0) == 1.0 ==> ApplyLink(LinkMap("logit", exp).value, 0.0) == 0.5
    ensures ApplyLink(LinkMap("logit", exp).value, 2.0) == 1.0 / (1.0 + exp(-2.0))
  {
  }

  /** The gradient the fused loop computes. */
  function PrefixGradient(link: Link, x: Vec, y: real, theta: Vec): Vec
    requires |theta| <= |x|
  {
    seq(|theta|, i requires 0 <= i < |theta| => (y - ApplyLink(link, PrefixDot(x, theta, i + 1))) * x[i])
  }

  function PrefixLoss(link: Link, y: real, x: Vec, theta: Vec): Result<Vec>
  {
    if |x| < |theta| then Panicked(IndexOutOfRange) else Ok(PrefixGradient(link, x, y, theta))
  }

  /** Coordinate i of the prefix gradient, from the running estimate before term i is added. */
  lemma PrefixGradientAt(link: Link, x: Vec, y: real, theta: Vec, i: nat)
    requires |theta| <= |x| && i < |theta|
    ensures PrefixGradient(link, x, y, theta)[i] == (y - ApplyLink(link, PrefixDot(x, theta, i) + x[i] * theta[i])) * x[i]
  {
  }

  /**
   The fused Go loop: `y_est = y_est + x[i]*theta[i]; grad[i] = (y - link(y_est)) * x[i]`
   for i < len(theta).
   */
  method GradPrefix(link: Link, y: real, x: Vec, theta: Vec) returns (r: Result<Vec>)
    ensures r.Panicked? <==> |x| < |theta|
    ensures r.Panicked? ==> r.cause == IndexOutOfRange
    ensures r.Ok? ==> |r.value| == |theta|
    ensures r == PrefixLoss(link, y, x, theta)
  {
    ghost var expected := if |theta| <= |x| then PrefixGradient(link, x, y, theta) else [];
    var grad := seq(|theta|, _ => 0.0);
    var yEst := 0.0;
    var i := 0;
    while i < |theta|
      invariant 0 <= i <= |theta| && i <= |x|
      invariant |grad| == |theta|
      invariant yEst == PrefixDot(x, theta, i)
      invariant |theta| <= |x| ==> forall j :: 0 <= j < i ==> grad[j] == expected[j]
    {
      if i >= |x| {
        return Panicked(IndexOutOfRange);
      }
      yEst := yEst + x[i] * theta[i];
      grad := grad[i := (y - ApplyLink(link, yEst)) * x[i]];
      if |theta| <= |x| {
        PrefixGradientAt(link, x, y, theta, i);
      }
      i := i + 1;
    }
    assert grad == expected;
    r := Ok(grad);
  }

  /** grad_linear_loss of this file: the prefix gradient with the identity link. */
  method GradLinearLoss(y: real, x: Vec, theta: Vec) returns (r: Result<Vec>)
    ensures r.Panicked? <==> |x| < |theta|
    ensures r.Ok? ==> |r.value| == |theta|
    ensures r.Ok? ==> forall i :: 0 <= i < |theta| ==>
      r.value[i] == (y - PrefixDot(x, theta, i + 1)) * x[i]
    ensures r == PrefixLoss(IdentityLink, y, x, theta)
  {
    r := GradPrefix(IdentityLink, y, x, theta);
  }

  /** grad_logistic_loss of this file: the prefix gradient with the logit link. */
  method GradLogisticLoss(exp: Exp, y: real, x: Vec, theta: Vec) returns (r: Result<Vec>)
    ensures r.Panicked? <==> |x| < |theta|
    ensures r.Ok? ==> |r.value| == |theta|
    ensures r.Ok? ==> forall i :: 0 <= i < |theta| ==>
      r.value[i] == (y - Logit(exp, PrefixDot(x, theta, i + 1))) * x[i]
    ensures r == PrefixLoss(LogitLink(exp), y, x, theta)
  {
    r := GradPrefix(LogitLink(exp), y, x, theta);
  }

  /** loss_map[name](y, x, theta) of this file: the nil function of a missing key panics when called. */
  function LookupLoss(exp: Exp, name: string, y: real, x: Vec, theta: Vec): (r: Result<Vec>)
    ensures LossMap(name).None? <==> r == Panicked(NilFunctionCall)
    ensures name == "linear" ==> r == PrefixLoss(IdentityLink, y, x, theta)
    ensures name == "logistic" ==> r == PrefixLoss(LogitLink(exp), y, x, theta)
  {
    match LossMap(name)
    case None => Panicked(NilFunctionCall)
    case Some(Linear) => PrefixLoss(IdentityLink, y, x, theta)
    case Some(Logistic) => PrefixLoss(LogitLink(exp), y, x, theta)
  }

  /** The first coordinate sees only the first term: (y - x[0] theta[0]) * x[0]. */
  lemma PrefixFirstCoordinate(link: Link, x: Vec, y: real, theta: Vec)
    requires 0 < |theta| <= |x|
    ensures PrefixGradient(link, x, y, theta)[0] == (y - ApplyLink(link, x[0] * theta[0])) * x[0]
  {
    assert PrefixDot(x, theta, 1) == x[0] * theta[0];
  }

  /** The last coordinate sees the whole dot product, so it agrees with the full-dot gradient. */
  lemma PrefixLastCoordinateAgrees(link: Link, x: Vec, y: real, theta: Vec)
    requires 0 < |theta| <= |x|
    ensures PrefixGradient(link, x, y, theta)[|theta| - 1] == ResidualGradient(link, x, y, theta)[|theta| - 1]
  {
  }

  /** In one dimension the fused loop and the full dot product compute the same gradient. */
  lemma PrefixAgreesInOneDimension(link: Link, x: Vec, y: real, theta: Vec)
    requires |theta| == 1 <= |x|
    ensures PrefixGradient(link, x, y, theta) == ResidualGradient(link, x, y, theta)
  {
    var p := PrefixGradient(link, x, y, theta);
    var f := ResidualGradient(link, x, y, theta);
    assert p[0] == f[0];
  }

  /**
   For the linear loss, coordinate i of the fused loop agrees with the full
   dot product exactly when x[i] is zero or the terms after i sum to zero.
   */
  lemma LinearPrefixAgreesIff(x: Vec, y: real, theta: Vec, i: nat)
    requires |theta| <= |x| && i < |theta|
    ensures PrefixGradient(IdentityLink, x, y, theta)[i] == ResidualGradient(IdentityLink, x, y, theta)[i]
        <==> x[i] == 0.0 || PrefixDot(x, theta, i + 1) == Dot(x, theta)
  {
    var a := PrefixDot(x, theta, i + 1);
    var b := Dot(x, theta);
    assert PrefixGradient(IdentityLink, x, y, theta)[i] == (y - a) * x[i];
    assert ResidualGradient(IdentityLink, x, y, theta)[i] == (y - b) * x[i];
    assert (y - a) * x[i] - (y - b) * x[i] == (b - a) * x[i];
  }

  /**
   As written, this file's linear gradient is not the gradient of the
   squared loss: with x = theta = [1, 1] and y = 0 it returns [-1, -2]
   where the full dot product (sgdlib/sgdlib.go, same package) gives [-2, -2].
   */
  lemma PrefixLinearLossDiffers()
    ensures PrefixLoss(IdentityLink, 0.0, [1.0, 1.0], [1.0, 1.0]) == Ok([-1.0, -2.0])
    ensures SgdLib.LinearLoss(0.0, [1.0, 1.0], [1.0, 1.0]) == Ok([-2.0, -2.0])
  {
    var x := [1.0, 1.0];
    assert PrefixDot(x, x, 1) == 1.0;
    assert PrefixDot(x, x, 2) == 2.0;
    assert PrefixGradient(IdentityLink, x, 0.0, x) == [-1.0, -2.0];
    assert ResidualGradient(IdentityLink, x, 0.0, x) == [-2.0, -2.0];
  }

  /**
   The fused logistic loop has the same defect: with x = theta = [1, 1] and
   y = 0 its first coordinate uses logit(1) where the full-dot logistic
   gradient of sgd.go uses logit(2), and the two differ whenever exp(-1)
   and exp(-2) do.
   */
  lemma PrefixLogisticLossDiffers(exp: Exp)
    requires exp(-1.0) != exp(-2.0)
    ensures PrefixLoss(LogitLink(exp), 0.0, [1.0, 1.0], [1.0, 1.0]) == Ok([-Logit(exp, 1.0), -Logit(exp, 2.0)])
    ensures Gradients.LogisticLoss(exp, [1.0, 1.0], 0.0, [1.0, 1.0]) == Ok([-Logit(exp, 2.0), -Logit(exp, 2.0)])
    ensures PrefixLoss(LogitLink(exp), 0.0, [1.0, 1.0], [1.0, 1.0]) != Gradients.LogisticLoss(exp, [1.0, 1.0], 0.0, [1.0, 1.0])
  {
    var x := [1.0, 1.0];
    assert PrefixDot(x, x, 1) == 1.0;
    assert PrefixDot(x, x, 2) == 2.0;
    var p := PrefixGradient(LogitLink(exp), x, 0.0, x);
    assert p[0] == (0.0 - Logit(exp, 1.0)) * 1.0 && p[1] == (0.0 - Logit(exp, 2.0)) * 1.0;
    assert p == [-Logit(exp, 1.0), -Logit(exp, 2.0)];
    var f := ResidualGradient(LogitLink(exp), x, 0.0, x);
    assert Dot(x, x) == 2.0;
    assert f[0] == (0.0 - Logit(exp, 2.0)) * 1.0 && f[1] == f[0];
    assert f == [-Logit(exp, 2.0), -Logit(exp, 2.0)];
    assert Logit(exp, 1.0) != Logit(exp, 2.0);
  }
}

=== FILE: stepsizes.dfy ===
/**
 Step-size rules: the kernel's pluggable schedules EtaInverse and EtaBottou
 (sgd.go, repeated as eta_inverse and eta_bottou in sgdKernel/sgd.go and
 sgdLib.go), and the fixed 1/(n+1) rule the one-shot updates compute
 inline (sgdlib/sgdlib.go Sgd, src/sgd.go and sgdlib.go sgd3).
 */
module StepSizes {
  import opened RealMath

  /**
   The kernel's step-function type: K is the float64 of the observation
   count, which the kernel only ever passes after incrementing it, so it is
   at least 1; tau and kappa are the current schedule parameters.
   */
  type StepFunc = (PosReal, real, real) -> real

  /** EtaInverse: 1/K, ignoring tau and kappa. */
  function EtaInverse(k: PosReal, tau: real, kappa: real): (eta: real)
    ensures 0.0 < eta && eta * k == 1.0
    ensures 1.0 <= k ==> eta <= 1.0
  {
    1.0 / k
  }

  /** EtaBottou: Pow(tau + K, kappa), with the exponent as given (not negated). */
  function EtaBottou(pow: Pow, k: PosReal, tau: real, kappa: real): real
  {
    pow(tau + k, kappa)
  }

  /** The Bottou rule for a given math.Pow, as the function value handed to the kernel. */
  function BottouSchedule(pow: Pow): StepFunc
  {
    (k: PosReal, tau: real, kappa: real) => EtaBottou(pow, k, tau, kappa)
  }

  /**
   EtaBottou reads K and tau only through their sum: tau shifts the count,
   so a kernel at count K with offset tau steps as one at count K + tau.
   */
  lemma BottouReadsShiftedCount(pow: Pow, k: PosReal, k': PosReal, tau: real, tau': real, kappa: real)
    requires tau + k == tau' + k'
    ensures EtaBottou(pow, k, tau, kappa) == EtaBottou(pow, k', tau', kappa)
  {
  }

  /** EtaInverse does not read the schedule parameters. */
  lemma EtaInverseIgnoresSchedule(k: PosReal, tau: real, kappa: real, tau': real, kappa': real)
    ensures EtaInverse(k, tau, kappa) == EtaInverse(k, tau', kappa')
  {
  }

  /** EtaInverse never grows with the count: later observations get smaller steps. */
  lemma EtaInverseDecreasing(k: PosReal, k': PosReal, tau: real, kappa: real)
    requires k <= k'
    ensures EtaInverse(k', tau, kappa) <= EtaInverse(k, tau, kappa)
  {
    var a := EtaInverse(k, tau, kappa);
    var b := EtaInverse(k', tau, kappa);
    assert b * k' == 1.0 && a * k == 1.0;
    assert b * k <= b * k' == a * k;
    assert (a - b) * k == a * k - b * k;
    assert 0.0 <= (a - b) * k;
  }

  /**
   Because the exponent is not negated, EtaBottou with tau = 0 reproduces
   EtaInverse only at kappa = -1, given that Pow(b, -1) is 1/b there.
   */
  lemma BottouAtMinusOneIsInverse(pow: Pow, k: PosReal, tau: real, kappa: real)
    requires pow(k, -1.0) * k == 1.0
    ensures EtaBottou(pow, k, 0.0, -1.0) == EtaInverse(k, tau, kappa)
  {
    var p := pow(k, -1.0);
    var e := EtaInverse(k, tau, kappa);
    assert p * k == e * k;
  }

  /**
   With a positive kappa the Bottou rule grows with K whenever Pow is
   increasing in its base, so it is not the decaying (tau + K)^(-kappa).
   */
  lemma BottouGrowsWithPositiveKappa(pow: Pow, k: PosReal, k': PosReal, tau: real)
    requires k < k'
    requires pow(tau + k, 1.0) == tau + k && pow(tau + k', 1.0) == tau + k'
    ensures EtaBottou(pow, k, tau, 1.0) < EtaBottou(pow, k', tau, 1.0)
  {
  }

  /**
   The inline rule of the one-shot updates, 1/(float64(n) + 1).  At n = -1
   Go divides by zero and yields +Inf, which the reals cannot express.
   */
  function OneShotStepSize(n: int): (step: real)
    requires n != -1
    ensures step * (n as real + 1.0) == 1.0
    ensures 0 <= n ==> 0.0 < step <= 1.0
  {
    1.0 / (n as real + 1.0)
  }

  /** The one-shot rule at n is the kernel's inverse rule at K = n + 1. */
  lemma OneShotIsInverseOfSuccessor(n: nat, tau: real, kappa: real)
    ensures OneShotStepSize(n) == EtaInverse(n as real + 1.0, tau, kappa)
  {
  }
}
